=== FILE: README.md ===
# Sequential key-value job interpreter, modelled in Dafny

This project models the core of a key-value store driven by job files. It covers two layers.

- **The store operations layer** (`proj_24-25-p1_base/operations.c`). This is the lifecycle of the single store (`kvs_init`, `kvs_terminate`), the batch operations `kvs_write`, `kvs_read`, `kvs_delete` and `kvs_show` with the exact text they write, the `kvs_backup` stub, and the millisecond-to-`timespec` conversion used by `kvs_wait`.
- **The driver** (`proj_24-25-p1_base/main.c`). This is the per-job command loop `kvs_processor`, `find_index`, the job-file filter, the derivation of the `.out` path, and the loop in `main` that runs every job file of a directory against the one store. `find_index` is declared and defined in `main.c` but nothing calls it: the filter in `main` calls `strrchr` itself. `Jobs.FindIndex` is therefore modelled on its own and does not feed `Jobs.IsJobFile`.

Each operation is a pure function from the store and its arguments to the new store, the text appended to the job's output, and the return code. The store pointer is `Operations.Kvs`, which is one of three things:
- `Uninitialized`: a NULL pointer.
- `Live(table)`: an initialised table.
- `Freed`: the pointer after `kvs_terminate`, which frees the table but does not reset the pointer.

The hash table of the `kvs` module is abstracted as a `map<string, string>` (module `HashTable`). `kvs.c` is not part of this model. The command tokenizer (`parser.c`) is not part of this model either. Its results are the input: a `seq<Processor.Command>`, where a WRITE, READ or DELETE that failed to parse carries an empty batch and a WAIT that failed to parse carries no delay. The end of that sequence behaves like EOC.

Modules and files:
- `wrappers.dfy`: `Option`.
- `collections.dfy`: generic facts about sequences and maps.
- `timing.dfy`: `delay_to_timespec`, with the delay as a 32-bit `unsigned int`.
- `hash_table.dfy`: the abstract table and the notion of a traversal order.
- `operations.dfy`: `operations.c`.
- `processor.dfy`: `kvs_processor`.
- `jobs.dfy`: the rest of `main.c`.

Behaviour of the code worth knowing:
- A READ line is `"[("`, then `key,value)` or `key,KVSERROR)` per key, then `"]\n"`. Only the first pair gets an opening parenthesis: reading `a` and `b` gives `[(a,1)b,2)]`. Keys stay in request order; they are not sorted.
- DELETE reports absent keys as `(key,KVSMISSING)`, in request order. Nothing is written when every key was found. A key listed twice in one batch is reported on its second occurrence.
- SHOW prints `(key, value)` lines, with a space after the comma.
- BACKUP does nothing. There are no worker threads, no job queue and no backup processes. Jobs run one after another, in directory order, against one store.
- If a job file cannot be opened, `main` stops with exit code 1. It does not skip that job and carry on.

## Model

| member | source | states |
|---|---|---|
| Timing.DelayToTimespec | proj_24-25-p1_base/operations.c:15-17 | The seconds and nanoseconds add back up to the delay. Nanoseconds are a whole number of milliseconds below one second. The `unsigned int` product cannot wrap around. |
| Timing.DelayToTimespecInverse | proj_24-25-p1_base/operations.c:15-17 | Every millisecond-aligned, normalised timespec is the conversion of its own duration, so the decomposition is unique. |
| Operations.Init | proj_24-25-p1_base/operations.c:19-27 | Succeeds (0, empty live table) exactly when the pointer is NULL and allocation succeeds. Otherwise it returns 1 and leaves the store unchanged. |
| Operations.Terminate | proj_24-25-p1_base/operations.c:29-37 | Returns 1 and changes nothing when the store was never initialised. Otherwise it returns 0 and frees the table without resetting the pointer. |
| Operations.TerminateThenInitRefused | proj_24-25-p1_base/operations.c:19-37 | After termination, every later `kvs_init` reports "already initialised" (1) and the store stays freed. |
| Operations.InitTwiceRefused | proj_24-25-p1_base/operations.c:19-27 | A second initialisation is refused and keeps the first, empty table. |
| Operations.ApplyPairs | proj_24-25-p1_base/operations.c:45-49 | Writing the pairs left to right leaves each batch key holding the value of its last occurrence. Every key outside the batch keeps its lookup result. |
| Operations.Write | proj_24-25-p1_base/operations.c:39-52 | On an uninitialised store it returns 1 and changes nothing. On a live store it returns 0 and gives last-occurrence-wins contents. It writes no output. |
| Operations.WriteIdempotent | proj_24-25-p1_base/operations.c:45-51 | Writing the same batch twice gives the same result as writing it once. |
| Operations.Read | proj_24-25-p1_base/operations.c:54-78 | Never changes the store. It returns 1 with no output when uninitialised. Otherwise it returns 0 and writes `"[("`, the per-key entries in request order, then `"]\n"`. |
| Operations.ReadEntriesAppend | proj_24-25-p1_base/operations.c:61-73 | The entries of a request split in two are the entries of the first part followed by those of the second: request order is kept. |
| Operations.ReadSeesLastWrite | proj_24-25-p1_base/operations.c:54-78 | Reading a key after a batch that wrote it shows the value of its last write in that batch. |
| Operations.ReadMissingKey | proj_24-25-p1_base/operations.c:63-66 | A key absent from the store reads as `KVSERROR`. |
| Operations.ReadTwoKeysFormat | proj_24-25-p1_base/operations.c:59-75 | Reading `a` and `b` writes `[(a,1)b,2)]`: only the first pair gets an opening parenthesis. |
| Operations.DeleteKeys | proj_24-25-p1_base/operations.c:88-98 | Deleting key by key removes exactly the listed keys. The keys not found at their turn are those absent from the table or repeated earlier in the batch, in request order. |
| Operations.Delete | proj_24-25-p1_base/operations.c:80-105 | On an uninitialised store it returns 1 and changes nothing. On a live store it returns 0, removes the listed keys, keeps the rest, and writes the report of the missing keys. |
| Operations.MissingKeysEmpty | proj_24-25-p1_base/operations.c:88-98 | No key is reported exactly when every listed key is present and listed once. |
| Operations.DeleteSilentIff | proj_24-25-p1_base/operations.c:85-102 | A DELETE writes nothing exactly when every listed key was present and listed once. |
| Operations.DeleteReportFormat | proj_24-25-p1_base/operations.c:88-102 | Whenever a DELETE writes something, it is `[`, the `(key,KVSMISSING)` entries of the missing keys in request order, then `]` and a newline. |
| Operations.MissingKeysAllAbsent | proj_24-25-p1_base/operations.c:88-98 | When none of the keys is in the table, every occurrence is reported, in order. |
| Operations.DeleteTwice | proj_24-25-p1_base/operations.c:80-105 | Deleting a batch twice leaves the same store as deleting it once. The second time reports every listed key as missing. |
| Operations.DeleteRepeatedKey | proj_24-25-p1_base/operations.c:88-101 | `DELETE [a,a]` on `{a:1}` empties the store and writes `[(a,KVSMISSING)]`: the second occurrence is missing. |
| Operations.ShowLines | proj_24-25-p1_base/operations.c:107-117 | For any traversal of the table, line i is the `(k, v)` line of the i-th visited key, so there is one line per visited node, in traversal order. There are as many lines as entries, every entry has its line, and every line belongs to an entry. |
| Operations.Show | proj_24-25-p1_base/operations.c:107-118 | SHOW writes the concatenated lines of the traversal, and writes nothing exactly when the table is empty. It needs a live table because there is no NULL check. It returns no store, so it cannot change it. |
| Processor.Step | proj_24-25-p1_base/main.c:79-170 | A non-empty WRITE runs `kvs_write` and writes nothing. A non-empty READ writes `kvs_read`'s line and keeps the store. A non-empty DELETE runs `kvs_delete` and writes its report. SHOW writes `kvs_show`'s lines and keeps the store. Only a WRITE or DELETE with a non-empty batch can change the store. HELP writes the help text. WAIT writes `Waiting...` only for a parsed delay above 0. BACKUP, INVALID, EMPTY and empty batches change nothing and write nothing. |
| Processor.Run | proj_24-25-p1_base/main.c:72-172 | The store stays initialised. If no command mutates, the store is unchanged. |
| Processor.RunAppend | proj_24-25-p1_base/main.c:73-79 | Commands run strictly in order. Running an EOC-free prefix and then the rest, from the store the prefix left, gives the same store and output as running the whole sequence. |
| Processor.RunStopsAtEoc | proj_24-25-p1_base/main.c:167-169 | Nothing after an EOC affects the store or the output. |
| Processor.WriteThenRead | proj_24-25-p1_base/main.c:80-106 | A READ after a WRITE of a key, in one job, writes the value just written. |
| Jobs.LastDot | proj_24-25-p1_base/main.c:65 | Finds the position of the last `'.'`, or no position when the name has none. |
| Jobs.FindIndex | proj_24-25-p1_base/main.c:63-70 | Returns the position of the last `'.'`, or 1 when the name has no `'.'`. |
| Jobs.LastDotOfJobSuffix | proj_24-25-p1_base/main.c:36 | For a name ending in `.job`, the last `'.'` (what `strrchr` finds) is the one that starts the suffix. |
| Jobs.IsJobFile | proj_24-25-p1_base/main.c:36 | The filter (not `.`, not `..`, suffix from the last `'.'` equal to `.job`) accepts a directory entry exactly when its name ends in `.job`. The checks against `.` and `..` never decide anything. |
| Jobs.InputPath | proj_24-25-p1_base/main.c:37-40 | The input path is the directory argument, a `/`, then the entry name; both parts can be read back from it. |
| Jobs.JobFilterAsWritten | proj_24-25-p1_base/main.c:36 | The filter in `main` is undefined exactly for names, other than `.` and `..`, that have no `'.'`. |
| Jobs.JobFilterUndefinedWithoutDot | proj_24-25-p1_base/main.c:36 | The entry `Makefile` makes the filter in `main` undefined. |
| Jobs.JobFilterAgrees | proj_24-25-p1_base/main.c:36 | Wherever the filter in `main` is defined, it agrees with `IsJobFile`. |
| Jobs.OutputPath | proj_24-25-p1_base/main.c:47-49 | The output path is as long as the input path. It keeps all but the last four characters and ends in `.out`. |
| Jobs.OutputPathOfJob | proj_24-25-p1_base/main.c:37-49 | The output of a job file is `<dir>/<name up to its last '.'>.out`: the `.job` extension becomes `.out`. |
| Jobs.OutputPathsDistinct | proj_24-25-p1_base/main.c:47-49 | Distinct job files in one directory get distinct output paths. |
| Jobs.RunJobs | proj_24-25-p1_base/main.c:35-56 | The loop completes exactly when every job file of the listing can be opened. It then writes exactly one output per job file, and the store stays initialised. Entries that are not job files are skipped with no effect (`Jobs.NoJobsNoEffect`), and the loop stops at the first job file that fails to open (`Jobs.RunJobsStopsAtFailedOpen`). |
| Jobs.NoJobsNoEffect | proj_24-25-p1_base/main.c:35-36 | A listing with no job file leaves the store as it was and writes no output. |
| Jobs.RunJobsStopsAtFailedOpen | proj_24-25-p1_base/main.c:41-46 | A job file that cannot be opened ends the loop at once: the store is as the earlier jobs left it, nothing later runs, and the loop reports the failure. |
| Jobs.RunJobsSingle | proj_24-25-p1_base/main.c:37-53 | For a listing holding one job file that opens, the job runs on the store and its `.out` path receives exactly the text the job wrote. |
| Jobs.RunJobsAppend | proj_24-25-p1_base/main.c:35-56 | Jobs run one after another on the shared store: each job sees what the earlier jobs left. |
| Jobs.Main | proj_24-25-p1_base/main.c:17-61 | The exit code is 0 exactly when all of these hold: there are 1 or 2 arguments, initialisation succeeds, the directory opens, and every job file opens. On 0 the store is freed and there is one output per job file. Otherwise the exit code is 1. |

## Findings

| source | as written | input that shows it | evidently intended | confidence | as-written member | corrected member |
|---|---|---|---|---|---|---|
| proj_24-25-p1_base/main.c:36 | The filter passes the result of `strrchr(name, '.')` straight to `strcmp`. For a name without a dot that result is a null pointer, which is undefined behaviour. | A directory entry named `Makefile` | Entries without a dot are skipped as not being job files | high; not executed | Jobs.JobFilterAsWritten (shown by Jobs.JobFilterUndefinedWithoutDot) | Jobs.IsJobFile (its ensures states the suffix property, agreement in Jobs.JobFilterAgrees; used by Jobs.RunJobs) |

## Left out

- File and directory I/O (`open`, `close`, `write`, `opendir`, `readdir`, `closedir`) is replaced by its results. A listing is a sequence of names (`None` when the directory cannot be opened). The job files are a map from input path to decoded commands, where a missing path means the open failed. Output is appended text.
- The sleep in `kvs_wait` is timing only and has no observable state. Only the conversion `Timing.DelayToTimespec` is modelled.
- Diagnostics written to stderr are not modelled.
- Jobs.Main: a failed open of the output file is not modelled. `main` ignores it and its writes go nowhere; the model always records the output.
- Jobs.Main: the third argument (maximum backups) is accepted and ignored, as `main` does. Path length limits (`MAX_JOB_FILE_NAME_SIZE`) are not modelled.
- Jobs.IsJobFile: treats a name with no `'.'` as not a job. The filter in `main` has undefined behaviour there (see Findings).
- Operations.Write: a failure inside `write_pair` (allocation in the `kvs` module) is not modelled. Every pair is written. `kvs_write` only logs such a failure and carries on.
- Operations.Read, Operations.Delete, Operations.Show: buffer limits (`MAX_WRITE_SIZE`, `MAX_STRING_SIZE`) and a possible `strcat`/`sprintf` overflow are not modelled. Strings are unbounded.
- Operations.Show: the traversal order comes from an enumerator of the table's contents, so one content always gives one order. In the C hash table the order within a bucket also depends on insertion history. Every stated property holds for any traversal.
- Operations.Write, Operations.Read, Operations.Delete, Operations.Terminate: calling them after `kvs_terminate` is a use-after-free or double free in the C code. Their requires exclude the `Freed` store.
- Hash-table internals (buckets, hashing, chaining, allocation) are abstracted as a map.
- The command tokenizer is abstracted as the input sequence of commands.
- Worker threads, the job queue, backup child processes and their concurrency ceiling do not exist in this code. `kvs_backup` is a stub returning 0, so BACKUP is a no-op in `Processor.Step`.

=== FILE: collections.dfy ===
/** Small algebraic facts about sequences and maps, stated once for any element type. */
module Collections {

  lemma TailOfAppend<T>(a: seq<T>, b: seq<T>)
    requires |a| > 0
    ensures (a + b)[0] == a[0]
    ensures (a + b)[1..] == a[1..] + b
  {
  }

  lemma AppendAssoc<T>(a: seq<T>, b: seq<T>, c: seq<T>)
    ensures a + (b + c) == (a + b) + c
  {
  }

  lemma MapUnionAssoc<K, V>(a: map<K, V>, b: map<K, V>, c: map<K, V>)
    ensures a + (b + c) == (a + b) + c
  {
  }
}

=== FILE: hash_table.dfy ===
/**
 * The table behind the store. The bucketed hash table of the store's `kvs`
 * module is abstracted as a finite map from key to value; buckets, chaining,
 * hashing and memory management are not part of this model.
 */
module HashTable {
  import opened Wrappers

  type Table = map<string, string>

  /** Insert `key`, or overwrite its value. */
  function WritePair(t: Table, key: string, value: string): (r: Table)
    ensures ReadPair(r, key) == Some(value)
    ensures forall k :: k != key ==> ReadPair(r, k) == ReadPair(t, k)
  {
    t[key := value]
  }

  /** The value stored under `key`, or `None` where `read_pair` returns NULL. */
  function ReadPair(t: Table, key: string): Option<string> {
    if key in t then Some(t[key]) else None
  }

  /** Remove `key`; the flag is false (a non-zero return from `delete_pair`) when it was absent. */
  function DeletePair(t: Table, key: string): (r: (Table, bool))
    ensures r.1 <==> key in t
    ensures r.0 == t - {key}
  {
    if key in t then (t - {key}, true) else (t, false)
  }

  /** Two tables that answer every lookup alike are the same table. */
  lemma ReadPairExtensional(a: Table, b: Table)
    requires forall k :: ReadPair(a, k) == ReadPair(b, k)
    ensures a == b
  {
    assert forall k :: k in a <==> k in b by {
      forall k ensures k in a <==> k in b {
        assert ReadPair(a, k).Some? == ReadPair(b, k).Some?;
      }
    }
    forall k | k in a ensures a[k] == b[k] {
      assert ReadPair(a, k) == ReadPair(b, k);
    }
  }

  /** True when the elements of `s` are pairwise distinct. */
  predicate Distinct(s: seq<string>) {
    forall i, j :: 0 <= i < j < |s| ==> s[i] != s[j]
  }

  /**
   * `order` lists every key of `t` exactly once: the traversal of the buckets
   * and their chains, whose order this model leaves open.
   */
  predicate IsEnumeration(order: seq<string>, t: Table) {
    && Distinct(order)
    && (forall k :: k in order ==> k in t)
    && (forall k :: k in t ==> k in order)
  }

  /** A supplier of traversal orders, one for each table. */
  ghost predicate IsEnumerator(showOrder: Table -> seq<string>) {
    forall t :: IsEnumeration(showOrder(t), t)
  }

  lemma {:induction false} DistinctCardinality(s: seq<string>)
    requires Distinct(s)
    ensures |set k | k in s| == |s|
  {
    if |s| > 0 {
      var init := s[..|s| - 1];
      DistinctCardinality(init);
      assert (set k | k in s) == (set k | k in init) + {s[|s| - 1]};
      assert s[|s| - 1] !in init;
    }
  }

  /** A traversal visits exactly as many nodes as the table holds entries. */
  lemma EnumerationLength(order: seq<string>, t: Table)
    requires IsEnumeration(order, t)
    ensures |order| == |t|
  {
    DistinctCardinality(order);
    assert (set k | k in order) == t.Keys;
  }
}

=== FILE: jobs.dfy ===
/**
 * The driver: discovery of job files in a directory listing, the path of
 * each job's output, `find_index`, and the run of all jobs against the one
 * store. Directory and file I/O are replaced by their results: the listing
 * is a sequence of entry names and the job files are a map from input path
 * to the commands the tokenizer decodes from it.
 */
module Jobs {
  import opened Wrappers
  import opened HashTable
  import Operations
  import Processor
  import Collections

  const JobSuffix := ".job"
  const OutSuffix := ".out"

  /** The position of the last '.' in `name`, if there is one. */
  function LastDot(name: string): (r: Option<nat>)
    ensures r.Some? ==> r.value < |name| && name[r.value] == '.'
    ensures r.Some? ==> forall j :: r.value < j < |name| ==> name[j] != '.'
    ensures r.None? ==> forall j :: 0 <= j < |name| ==> name[j] != '.'
    decreases |name|
  {
    if |name| == 0 then None
    else if name[|name| - 1] == '.' then Some(|name| - 1)
    else LastDot(name[..|name| - 1])
  }

  /**
   * `find_index`: the offset of the last '.' in the name, found by a
   * forward scan that remembers the latest dot; 1 when there is no dot.
   */
  method FindIndex(name: string) returns (index: nat)
    ensures '.' in name ==> index < |name| && name[index] == '.'
    ensures '.' in name ==> forall j :: index < j < |name| ==> name[j] != '.'
    ensures '.' !in name ==> index == 1
  {
    var last: Option<nat> := None;
    var i := 0;
    while i < |name|
      invariant 0 <= i <= |name|
      invariant last.Some? ==> last.value < i && name[last.value] == '.'
      invariant last.Some? ==> forall j :: last.value < j < i ==> name[j] != '.'
      invariant last.None? ==> forall j :: 0 <= j < i ==> name[j] != '.'
    {
      if name[i] == '.' {
        last := Some(i);
      }
      i := i + 1;
    }
    index := if last.Some? then last.value else 1;
  }

  /** A name ending in ".job" has its last '.' four characters from the end. */
  lemma LastDotOfJobSuffix(name: string)
    ensures |name| >= 4 && name[|name| - 4..] == JobSuffix ==> LastDot(name) == Some(|name| - 4)
  {
    if |name| >= 4 && name[|name| - 4..] == JobSuffix {
      var d := |name| - 4;
      assert name[d] == '.';
      assert forall j :: d < j < |name| ==> name[j] == JobSuffix[j - d];
    }
  }

  /**
   * The job-file filter: neither "." nor "..", and the suffix from the last
   * '.' is ".job". A name without any '.' is not a job file. The result is
   * exactly "the name ends in .job", so the checks against "." and ".."
   * never decide anything.
   */
  function IsJobFile(name: string): (r: bool)
    ensures r <==> |name| >= 4 && name[|name| - 4..] == JobSuffix
  {
    LastDotOfJobSuffix(name);
    && name != "."
    && name != ".."
    && match LastDot(name)
       case None => false
       case Some(i) => name[i..] == JobSuffix
  }

  /**
   * The filter as `main` evaluates it with `strcmp(strrchr(name, '.'), ".job")`.
   * For a name with no '.', `strrchr` returns NULL and `strcmp` receives a
   * null pointer, which is undefined; that outcome is `None`.
   */
  function JobFilterAsWritten(name: string): (r: Option<bool>)
    ensures r.None? <==> name != "." && name != ".." && '.' !in name
  {
    if name == "." || name == ".." then Some(false)
    else match LastDot(name)
      case None => None
      case Some(i) => Some(name[i..] == JobSuffix)
  }

  /** An ordinary file name without an extension makes the filter in `main` undefined. */
  lemma JobFilterUndefinedWithoutDot()
    ensures JobFilterAsWritten("Makefile") == None
  {
  }

  /** Wherever the filter in `main` is defined, `IsJobFile` gives the same answer. */
  lemma JobFilterAgrees(name: string)
    ensures JobFilterAsWritten(name).Some? ==> JobFilterAsWritten(name).value == IsJobFile(name)
    ensures JobFilterAsWritten(name).None? ==> !IsJobFile(name)
  {
  }

  /**
   * The path a job file is opened under: the directory argument, a '/', and
   * the entry name, from which both parts can be read back.
   */
  function InputPath(dir: string, name: string): (r: string)
    ensures |r| == |dir| + 1 + |name|
    ensures r[..|dir|] == dir && r[|dir|] == '/' && r[|dir| + 1..] == name
  {
    dir + "/" + name
  }

  /** The output path: the input path without its last four characters, then ".out". */
  function OutputPath(inputPath: string): (r: string)
    requires |inputPath| >= 4
    ensures |r| == |inputPath|
    ensures r[..|r| - 4] == inputPath[..|inputPath| - 4]
    ensures r[|r| - 4..] == OutSuffix
  {
    inputPath[..|inputPath| - 4] + OutSuffix
  }

  /** The output of a job file sits beside it: its ".job" extension is replaced by ".out". */
  lemma OutputPathOfJob(dir: string, name: string)
    requires IsJobFile(name)
    ensures |InputPath(dir, name)| >= 4
    ensures OutputPath(InputPath(dir, name)) == dir + "/" + name[..LastDot(name).value] + OutSuffix
  {
    LastDotOfJobSuffix(name);
    var i := LastDot(name).value;
    assert i == |name| - 4;
    var p := InputPath(dir, name);
    assert p[..|p| - 4] == dir + "/" + name[..i];
  }

  /** Distinct job files of one directory have distinct outputs. */
  lemma OutputPathsDistinct(dir: string, a: string, b: string)
    requires IsJobFile(a) && IsJobFile(b) && a != b
    ensures OutputPath(InputPath(dir, a)) != OutputPath(InputPath(dir, b))
  {
    var pa, pb := InputPath(dir, a), InputPath(dir, b);
    assert pa != pb by {
      assert pa[|dir| + 1..] == a && pb[|dir| + 1..] == b;
    }
    assert pa == OutputPath(pa)[..|pa| - 4] + JobSuffix;
    assert pb == OutputPath(pb)[..|pb| - 4] + JobSuffix;
  }

  /** After the loop over a listing: the store, the outputs written, and whether every job opened. */
  datatype JobsRun = JobsRun(kvs: Operations.Kvs, outputs: map<string, string>, allOpened: bool)

  /** The output paths of the job files of a listing. */
  function OutputsOf(dir: string, entries: seq<string>): set<string> {
    set n | n in entries && IsJobFile(n) :: OutputPath(InputPath(dir, n))
  }

  /**
   * The loop over the directory listing. Entries that are not job files are
   * skipped; a job file whose input cannot be opened stops the loop; every
   * other job runs on the store the previous jobs left, and its output
   * replaces the content of its output path.
   */
  function RunJobs(
    dir: string, entries: seq<string>, s: Operations.Kvs,
    files: map<string, seq<Processor.Command>>, showOrder: Table -> seq<string>): (r: JobsRun)
    requires s.Live? && IsEnumerator(showOrder)
    ensures r.kvs.Live?
    ensures r.allOpened <==> forall n :: n in entries && IsJobFile(n) ==> InputPath(dir, n) in files
    ensures r.allOpened ==> r.outputs.Keys == OutputsOf(dir, entries)
    decreases |entries|
  {
    if |entries| == 0 then JobsRun(s, map[], true)
    else
      var name := entries[0];
      assert forall n :: n in entries <==> n == name || n in entries[1..];
      if !IsJobFile(name) then
        RunJobs(dir, entries[1..], s, files, showOrder)
      else
        var input := InputPath(dir, name);
        if input !in files then JobsRun(s, map[], false)
        else
          var job := Processor.Run(s, files[input], showOrder);
          var rest := RunJobs(dir, entries[1..], job.kvs, files, showOrder);
          JobsRun(rest.kvs, map[OutputPath(input) := job.out] + rest.outputs, rest.allOpened)
  }

  /** Entries that are not job files are skipped: they touch neither the store nor any output. */
  lemma {:induction false} NoJobsNoEffect(
    dir: string, entries: seq<string>, s: Operations.Kvs,
    files: map<string, seq<Processor.Command>>, showOrder: Table -> seq<string>)
    requires s.Live? && IsEnumerator(showOrder)
    requires forall n :: n in entries ==> !IsJobFile(n)
    ensures RunJobs(dir, entries, s, files, showOrder) == JobsRun(s, map[], true)
    decreases |entries|
  {
    if |entries| > 0 {
      assert forall n :: n in entries[1..] ==> n in entries;
      NoJobsNoEffect(dir, entries[1..], s, files, showOrder);
    }
  }

  /**
   * A job file that cannot be opened ends the loop at once: the entries after
   * it are never looked at, and nothing further is run or written.
   */
  lemma RunJobsStopsAtFailedOpen(
    dir: string, name: string, rest: seq<string>, s: Operations.Kvs,
    files: map<string, seq<Processor.Command>>, showOrder: Table -> seq<string>)
    requires s.Live? && IsEnumerator(showOrder)
    requires IsJobFile(name) && InputPath(dir, name) !in files
    ensures RunJobs(dir, [name] + rest, s, files, showOrder) == JobsRun(s, map[], false)
  {
    assert ([name] + rest)[0] == name;
  }

  /**
   * A listing of one job file that opens: the job runs on the store, and its
   * output path receives exactly the text the job wrote.
   */
  lemma RunJobsSingle(
    dir: string, name: string, s: Operations.Kvs,
    files: map<string, seq<Processor.Command>>, showOrder: Table -> seq<string>)
    requires s.Live? && IsEnumerator(showOrder)
    requires IsJobFile(name) && InputPath(dir, name) in files
    ensures var job := Processor.Run(s, files[InputPath(dir, name)], showOrder);
            RunJobs(dir, [name], s, files, showOrder)
              == JobsRun(job.kvs, map[OutputPath(InputPath(dir, name)) := job.out], true)
  {
    var job := Processor.Run(s, files[InputPath(dir, name)], showOrder);
    assert [name][1..] == [];
    assert RunJobs(dir, [], job.kvs, files, showOrder) == JobsRun(job.kvs, map[], true);
    assert map[OutputPath(InputPath(dir, name)) := job.out] + map[]
        == map[OutputPath(InputPath(dir, name)) := job.out];
  }

  /** What the process ends with: its exit code, the store, and the outputs written. */
  datatype Exit = Exit(code: int, kvs: Operations.Kvs, outputs: map<string, string>)

  /**
   * `main`, with argv as `args` (program name first), the allocation outcome
   * of initialisation, the listing (`None` when the directory cannot be
   * opened) and the job files. The store starts as a NULL pointer.
   */
  function Main(
    args: seq<string>, allocOk: bool, listing: Option<seq<string>>,
    files: map<string, seq<Processor.Command>>, showOrder: Table -> seq<string>): (r: Exit)
    requires IsEnumerator(showOrder)
    ensures r.code == 0 || r.code == 1
    ensures r.code == 0 <==>
      && 2 <= |args| <= 3
      && allocOk
      && listing.Some?
      && forall n :: n in listing.value && IsJobFile(n) ==> InputPath(args[1], n) in files
    ensures r.code == 0 ==> r.kvs == Operations.Freed
    ensures r.code == 0 ==> r.outputs.Keys == OutputsOf(args[1], listing.value)
  {
    if |args| > 3 || |args| < 2 then Exit(1, Operations.Uninitialized, map[])
    else
      var init := Operations.Init(Operations.Uninitialized, allocOk);
      if init.status != 0 then Exit(1, init.kvs, map[])
      else if listing.None? then Exit(1, init.kvs, map[])
      else
        var run := RunJobs(args[1], listing.value, init.kvs, files, showOrder);
        if !run.allOpened then Exit(1, run.kvs, run.outputs)
        else Exit(0, Operations.Terminate(run.kvs).kvs, run.outputs)
  }

  /**
   * Jobs run one after another on the shared store: running two parts of a
   * listing in turn is running the whole listing.
   */
  lemma {:induction false} RunJobsAppend(
    dir: string, a: seq<string>, b: seq<string>, s: Operations.Kvs,
    files: map<string, seq<Processor.Command>>, showOrder: Table -> seq<string>)
    requires s.Live? && IsEnumerator(showOrder)
    requires RunJobs(dir, a, s, files, showOrder).allOpened
    ensures var first := RunJobs(dir, a, s, files, showOrder);
            var second := RunJobs(dir, b, first.kvs, files, showOrder);
            RunJobs(dir, a + b, s, files, showOrder)
              == JobsRun(second.kvs, first.outputs + second.outputs, second.allOpened)
    decreases |a|
  {
    if |a| == 0 {
      assert a + b == b;
    } else {
      Collections.TailOfAppend(a, b);
      var name := a[0];
      if IsJobFile(name) {
        var input := InputPath(dir, name);
        var job := Processor.Run(s, files[input], showOrder);
        var rest := RunJobs(dir, a[1..], job.kvs, files, showOrder);
        var second := RunJobs(dir, b, rest.kvs, files, showOrder);
        RunJobsAppend(dir, a[1..], b, job.kvs, files, showOrder);
        Collections.MapUnionAssoc(map[OutputPath(input) := job.out], rest.outputs, second.outputs);
      } else {
        RunJobsAppend(dir, a[1..], b, s, files, showOrder);
      }
    }
  }
}

=== FILE: operations.dfy ===
/**
 * The store operations layer: the lifecycle of the single store, and the
 * batch WRITE, READ, DELETE and SHOW operations with the exact text they
 * write to a job's output. Each operation is a pure function from the store
 * and its arguments to the new store, the output and the return code.
 */
module Operations {
  import opened Wrappers
  import opened HashTable

  /**
   * The store pointer: NULL before initialisation, a live table afterwards,
   * and a freed table after termination. Termination frees the table but
   * leaves the pointer non-NULL, so `Freed` is not `Uninitialized`.
   */
  datatype Kvs = Uninitialized | Live(table: Table) | Freed

  /** What an operation leaves: the store, the text it wrote to the job's output, its return code. */
  datatype Reply = Reply(kvs: Kvs, out: string, status: int)

  /** A batch of key/value pairs, in request order. */
  type Pairs = seq<(string, string)>

  const KvsError := "KVSERROR"
  const KvsMissing := "KVSMISSING"

  // ---------------------------------------------------------------- lifecycle

  /**
   * `kvs_init`. Refused with 1 when the pointer is already set (including
   * after termination); otherwise the allocation outcome decides, and a
   * failed allocation leaves the pointer NULL.
   */
  function Init(s: Kvs, allocOk: bool): (r: Reply)
    ensures r.out == ""
    ensures r.status == 0 <==> s.Uninitialized? && allocOk
    ensures r.status == 0 ==> r.kvs == Live(map[])
    ensures r.status != 0 ==> r.status == 1 && r.kvs == s
  {
    if !s.Uninitialized? then Reply(s, "", 1)
    else if allocOk then Reply(Live(map[]), "", 0)
    else Reply(Uninitialized, "", 1)
  }

  /**
   * `kvs_terminate`. Refused with 1 when never initialised; otherwise the
   * table is freed. Freeing it a second time is undefined, hence the requires.
   */
  function Terminate(s: Kvs): (r: Reply)
    requires !s.Freed?
    ensures r.out == ""
    ensures r.status == 1 <==> s.Uninitialized?
    ensures r.status == 1 ==> r.kvs == s
    ensures r.status != 1 ==> r.status == 0 && r.kvs == Freed
  {
    if s.Uninitialized? then Reply(s, "", 1) else Reply(Freed, "", 0)
  }

  /**
   * Termination does not reset the pointer, so no later initialisation
   * succeeds: it reports "already initialised" and the store stays freed.
   */
  lemma TerminateThenInitRefused(t: Table, allocOk: bool)
    ensures Terminate(Live(t)).kvs == Freed
    ensures Init(Terminate(Live(t)).kvs, allocOk) == Reply(Freed, "", 1)
  {
  }

  /** A second initialisation is refused and leaves the first table in place. */
  lemma InitTwiceRefused(s: Kvs, first: bool, second: bool)
    requires Init(s, first).status == 0
    ensures Init(Init(s, first).kvs, second) == Reply(Live(map[]), "", 1)
  {
  }

  // ---------------------------------------------------------------- WRITE

  /** The value paired with the last occurrence of `key` in the batch, if any. */
  function LastValue(pairs: Pairs, key: string): Option<string>
    decreases |pairs|
  {
    if |pairs| == 0 then None
    else if pairs[|pairs| - 1].0 == key then Some(pairs[|pairs| - 1].1)
    else LastValue(pairs[..|pairs| - 1], key)
  }

  /**
   * The write loop: the pairs are written one after the other, left to
   * right, so the last pair is written onto the result of the others.
   */
  function ApplyPairs(t: Table, pairs: Pairs): (r: Table)
    ensures forall k :: ReadPair(r, k) == LastValue(pairs, k).OrElse(ReadPair(t, k))
    decreases |pairs|
  {
    if |pairs| == 0 then t
    else
      var p := pairs[|pairs| - 1];
      WritePair(ApplyPairs(t, pairs[..|pairs| - 1]), p.0, p.1)
  }

  /**
   * `kvs_write`. On a live store every key of the batch ends up holding the
   * value of its last occurrence and every other key keeps its value; no
   * output is written.
   */
  function Write(s: Kvs, pairs: Pairs): (r: Reply)
    requires !s.Freed?
    ensures r.out == ""
    ensures s.Uninitialized? ==> r == Reply(s, "", 1)
    ensures s.Live? ==> r.status == 0 && r.kvs.Live?
    ensures s.Live? ==> forall k ::
      ReadPair(r.kvs.table, k) == LastValue(pairs, k).OrElse(ReadPair(s.table, k))
  {
    if s.Uninitialized? then Reply(s, "", 1)
    else Reply(Live(ApplyPairs(s.table, pairs)), "", 0)
  }

  /** Writing the same batch twice leaves the store as writing it once. */
  lemma WriteIdempotent(s: Kvs, pairs: Pairs)
    requires s.Live?
    ensures Write(Write(s, pairs).kvs, pairs) == Write(s, pairs)
  {
    var once := Write(s, pairs).kvs.table;
    var twice := Write(Write(s, pairs).kvs, pairs).kvs.table;
    forall k ensures ReadPair(twice, k) == ReadPair(once, k) {
      assert ReadPair(twice, k) == LastValue(pairs, k).OrElse(ReadPair(once, k));
    }
    ReadPairExtensional(twice, once);
  }

  // ---------------------------------------------------------------- READ

  /**
   * The text appended for one requested key: the key, a comma, the value or
   * the error sentinel, and a closing parenthesis. There is no opening
   * parenthesis: only the one written before the first key precedes it.
   */
  function ReadEntry(t: Table, key: string): string {
    match ReadPair(t, key)
    case Some(v) => key + "," + v + ")"
    case None => key + "," + KvsError + ")"
  }

  /** The entries of the requested keys, in request order. */
  function ReadEntries(t: Table, keys: seq<string>): string
    decreases |keys|
  {
    if |keys| == 0 then "" else ReadEntry(t, keys[0]) + ReadEntries(t, keys[1..])
  }

  /**
   * `kvs_read`. Never changes the store. On a live store it writes one line:
   * "[(", the entry of each key in request order, and "]\n".
   */
  function Read(s: Kvs, keys: seq<string>): (r: Reply)
    requires !s.Freed?
    ensures r.kvs == s
    ensures r.status == 1 <==> s.Uninitialized?
    ensures r.status != 1 ==> r.status == 0
    ensures s.Uninitialized? ==> r.out == ""
    ensures s.Live? ==> r.out == "[(" + ReadEntries(s.table, keys) + "]\n"
  {
    if s.Uninitialized? then Reply(s, "", 1)
    else Reply(s, "[(" + ReadEntries(s.table, keys) + "]\n", 0)
  }

  /** The entries of a split request are the entries of its parts, in order. */
  lemma {:induction false} ReadEntriesAppend(t: Table, a: seq<string>, b: seq<string>)
    ensures ReadEntries(t, a + b) == ReadEntries(t, a) + ReadEntries(t, b)
    decreases |a|
  {
    if |a| == 0 {
      assert a + b == b;
    } else {
      assert (a + b)[1..] == a[1..] + b;
      ReadEntriesAppend(t, a[1..], b);
    }
  }

  /** A key read back after a batch that wrote it reports the value of its last write. */
  lemma ReadSeesLastWrite(s: Kvs, pairs: Pairs, key: string, value: string)
    requires s.Live?
    requires LastValue(pairs, key) == Some(value)
    ensures Read(Write(s, pairs).kvs, [key]).out == "[(" + key + "," + value + ")]\n"
  {
    var t := Write(s, pairs).kvs.table;
    assert ReadPair(t, key) == Some(value);
    assert ReadEntries(t, [key]) == ReadEntry(t, key) + ReadEntries(t, []);
  }

  /** A key the store does not hold is reported with the error sentinel. */
  lemma ReadMissingKey(t: Table, key: string)
    requires key !in t
    ensures Read(Live(t), [key]).out == "[(" + key + ",KVSERROR)]\n"
  {
    assert ReadEntries(t, [key]) == ReadEntry(t, key) + ReadEntries(t, []);
  }

  /** Only the first pair of a READ line gets an opening parenthesis. */
  lemma ReadTwoKeysFormat()
    ensures Read(Live(map["a" := "1", "b" := "2"]), ["a", "b"]).out == "[(a,1)b,2)]\n"
  {
    var t := map["a" := "1", "b" := "2"];
    assert ["a", "b"][1..] == ["b"];
    assert ReadEntries(t, ["b"]) == ReadEntry(t, "b") + ReadEntries(t, []);
  }

  // ---------------------------------------------------------------- DELETE

  /** The set of keys a batch names. */
  function KeySet(keys: seq<string>): set<string> {
    set k | k in keys
  }

  /**
   * The keys a DELETE batch reports, in request order: those absent from the
   * table, and those already removed by an earlier occurrence in the batch.
   */
  function MissingKeys(t: Table, keys: seq<string>): seq<string>
    decreases |keys|
  {
    if |keys| == 0 then []
    else
      var init := keys[..|keys| - 1];
      var k := keys[|keys| - 1];
      MissingKeys(t, init) + (if k !in t || k in init then [k] else [])
  }

  /**
   * The delete loop: each key is removed in turn and the ones that were not
   * found at their turn are collected.
   */
  function DeleteKeys(t: Table, keys: seq<string>): (r: (Table, seq<string>))
    ensures r.0 == t - KeySet(keys)
    ensures r.1 == MissingKeys(t, keys)
    decreases |keys|
  {
    if |keys| == 0 then (t, [])
    else
      var init := keys[..|keys| - 1];
      var k := keys[|keys| - 1];
      var prev := DeleteKeys(t, init);
      assert KeySet(keys) == KeySet(init) + {k};
      var step := DeletePair(prev.0, k);
      (step.0, if step.1 then prev.1 else prev.1 + [k])
  }

  /** The reports of the missing keys, each "(key,KVSMISSING)". */
  function MissingEntries(missing: seq<string>): string
    decreases |missing|
  {
    if |missing| == 0 then "" else "(" + missing[0] + "," + KvsMissing + ")" + MissingEntries(missing[1..])
  }

  /** Nothing when no key was missing; otherwise the reports bracketed on one line. */
  function MissingReport(missing: seq<string>): string {
    if |missing| == 0 then "" else "[" + MissingEntries(missing) + "]\n"
  }

  /**
   * `kvs_delete`. On a live store every listed key is gone afterwards, every
   * other entry is untouched, and the keys not found at their turn are
   * reported in request order.
   */
  function Delete(s: Kvs, keys: seq<string>): (r: Reply)
    requires !s.Freed?
    ensures s.Uninitialized? ==> r == Reply(s, "", 1)
    ensures s.Live? ==> r.status == 0 && r.kvs == Live(s.table - KeySet(keys))
    ensures s.Live? ==> r.out == MissingReport(MissingKeys(s.table, keys))
  {
    if s.Uninitialized? then Reply(s, "", 1)
    else
      var d := DeleteKeys(s.table, keys);
      Reply(Live(d.0), MissingReport(d.1), 0)
  }

  /** No key is reported exactly when every key is present and listed once. */
  lemma {:induction false} MissingKeysEmpty(t: Table, keys: seq<string>)
    ensures MissingKeys(t, keys) == [] <==>
      forall i :: 0 <= i < |keys| ==> keys[i] in t && keys[i] !in keys[..i]
    decreases |keys|
  {
    if |keys| > 0 {
      var init := keys[..|keys| - 1];
      MissingKeysEmpty(t, init);
      assert forall i :: 0 <= i < |init| ==> init[i] == keys[i] && init[..i] == keys[..i];
    }
  }

  /** A DELETE writes nothing exactly when every key was present and listed once. */
  lemma DeleteSilentIff(t: Table, keys: seq<string>)
    ensures Delete(Live(t), keys).out == "" <==>
      forall i :: 0 <= i < |keys| ==> keys[i] in t && keys[i] !in keys[..i]
  {
    MissingKeysEmpty(t, keys);
    var m := MissingKeys(t, keys);
    if |m| > 0 {
      assert MissingReport(m)[0] == '[';
    }
  }

  /** Whenever a DELETE writes something, it is the bracketed report of the missing keys. */
  lemma DeleteReportFormat(t: Table, keys: seq<string>)
    ensures Delete(Live(t), keys).out != "" ==>
      Delete(Live(t), keys).out == "[" + MissingEntries(MissingKeys(t, keys)) + "]\n"
  {
  }

  /** After a batch is deleted, none of its keys is present: each is reported again. */
  lemma {:induction false} MissingKeysAllAbsent(t: Table, keys: seq<string>)
    requires forall k :: k in keys ==> k !in t
    ensures MissingKeys(t, keys) == keys
    decreases |keys|
  {
    if |keys| > 0 {
      var init := keys[..|keys| - 1];
      MissingKeysAllAbsent(t, init);
      assert init + [keys[|keys| - 1]] == keys;
    }
  }

  /**
   * Deleting a batch twice leaves the store as deleting it once; the second
   * time every listed key is reported missing.
   */
  lemma DeleteTwice(t: Table, keys: seq<string>)
    requires |keys| > 0
    ensures Delete(Delete(Live(t), keys).kvs, keys).kvs == Delete(Live(t), keys).kvs
    ensures Delete(Delete(Live(t), keys).kvs, keys).out == "[" + MissingEntries(keys) + "]\n"
  {
    var t1 := t - KeySet(keys);
    assert t1 - KeySet(keys) == t1;
    MissingKeysAllAbsent(t1, keys);
  }

  /** A key listed twice in one batch is removed once and reported on its second occurrence. */
  lemma DeleteRepeatedKey()
    ensures Delete(Live(map["a" := "1"]), ["a", "a"]).kvs == Live(map[])
    ensures Delete(Live(map["a" := "1"]), ["a", "a"]).out == "[(a,KVSMISSING)]\n"
  {
    var t := map["a" := "1"];
    assert MissingKeys(t, ["a", "a"]) == ["a"] by {
      assert ["a", "a"][..1] == ["a"];
      assert ["a"][..0] == [];
      assert MissingKeys(t, ["a"]) == [];
    }
    assert MissingEntries(["a"]) == "(a,KVSMISSING)" by {
      assert ["a"][1..] == [];
    }
    assert t - KeySet(["a", "a"]) == map[] by {
      assert KeySet(["a", "a"]) == {"a"};
    }
  }

  // ---------------------------------------------------------------- SHOW

  /** One SHOW line: the key, a comma and a space, the value. */
  function EntryLine(key: string, value: string): string {
    "(" + key + ", " + value + ")\n"
  }

  /**
   * The lines SHOW prints, in traversal order: exactly one per entry of the
   * table, and every entry has its line.
   */
  function ShowLines(t: Table, order: seq<string>): (lines: seq<string>)
    requires IsEnumeration(order, t)
    ensures |lines| == |t|
    ensures forall k :: k in t ==> EntryLine(k, t[k]) in lines
    ensures forall i :: 0 <= i < |lines| ==> exists k :: k in t && lines[i] == EntryLine(k, t[k])
    ensures |lines| == |order| && forall i :: 0 <= i < |order| ==> lines[i] == EntryLine(order[i], t[order[i]])
  {
    EnumerationLength(order, t);
    var lines := seq(|order|, i requires 0 <= i < |order| => EntryLine(order[i], t[order[i]]));
    forall k | k in t ensures EntryLine(k, t[k]) in lines {
      var i :| 0 <= i < |order| && order[i] == k;
      assert lines[i] == EntryLine(k, t[k]);
    }
    lines
  }

  /** Concatenation of lines into one text. */
  function Concat(lines: seq<string>): string
    decreases |lines|
  {
    if |lines| == 0 then "" else lines[0] + Concat(lines[1..])
  }

  /**
   * `kvs_show`. It reads the table with no initialisation check, so it needs
   * a live store; it writes the lines of `ShowLines` and changes nothing. It
   * writes nothing exactly when the table is empty.
   */
  function Show(s: Kvs, order: seq<string>): (out: string)
    requires s.Live? && IsEnumeration(order, s.table)
    ensures out == Concat(ShowLines(s.table, order))
    ensures out == "" <==> |s.table| == 0
  {
    var lines := ShowLines(s.table, order);
    assert |lines| > 0 ==> |lines[0]| > 0 && |Concat(lines)| >= |lines[0]|;
    Concat(lines)
  }
}

=== FILE: processor.dfy ===
/**
 * The per-job command interpreter: a fold over the commands the tokenizer
 * decodes from one job file, threading the store and appending to the job's
 * output. The tokenizer itself is not part of this model; its results are the
 * input sequence.
 */
module Processor {
  import opened Wrappers
  import opened Timing
  import opened HashTable
  import Operations
  import Collections

  /**
   * One decoded command. A WRITE, READ or DELETE that failed to parse arrives
   * with no pairs or keys; a WAIT that failed to parse arrives with no delay.
   */
  datatype Command =
    | Write(pairs: Operations.Pairs)
    | Read(keys: seq<string>)
    | Delete(keys: seq<string>)
    | Show
    | Wait(delay: Option<u32>)
    | Backup
    | Help
    | Invalid
    | Empty
    | Eoc

  /** The store and the text written to the job's output so far. */
  datatype Job = Job(kvs: Operations.Kvs, out: string)

  const HelpText :=
    "Available commands:\n"
    + "  WRITE [(key,value)(key2,value2),...]\n"
    + "  READ [key,key2,...]\n"
    + "  DELETE [key,key2,...]\n"
    + "  SHOW\n"
    + "  WAIT <delay_ms>\n"
    + "  BACKUP\n"
    + "  HELP\n"

  const WaitingText := "Waiting...\n"

  /** True of the commands that can change the store: a WRITE or DELETE with a non-empty batch. */
  predicate Mutates(c: Command) {
    (c.Write? && |c.pairs| > 0) || (c.Delete? && |c.keys| > 0)
  }

  /**
   * One pass of the interpreter loop, for any command but the end of input:
   * a non-empty WRITE, READ or DELETE and every SHOW hand over to the
   * matching store operation. The store is live throughout, since the interpreter only runs after a
   * successful initialisation; `kvs_backup` is a stub that does nothing.
   */
  function Step(s: Operations.Kvs, c: Command, showOrder: Table -> seq<string>): (r: Job)
    requires s.Live? && !c.Eoc? && IsEnumerator(showOrder)
    ensures r.kvs.Live?
    ensures r.kvs != s ==> Mutates(c)
    ensures c.Read? || c.Show? || c.Wait? || c.Help? ==> r.kvs == s
    ensures c.Help? ==> r.out == HelpText
    ensures c.Wait? ==> r.out == (if c.delay.Some? && c.delay.value > 0 then WaitingText else "")
    ensures c.Backup? || c.Invalid? || c.Empty? ==> r == Job(s, "")
    ensures (c.Write? && |c.pairs| == 0) || ((c.Read? || c.Delete?) && |c.keys| == 0) ==> r == Job(s, "")
    ensures c.Write? && |c.pairs| > 0 ==> r == Job(Operations.Write(s, c.pairs).kvs, "")
    ensures c.Read? && |c.keys| > 0 ==> r == Job(s, Operations.Read(s, c.keys).out)
    ensures c.Delete? && |c.keys| > 0 ==>
      r == Job(Operations.Delete(s, c.keys).kvs, Operations.Delete(s, c.keys).out)
    ensures c.Show? ==> r == Job(s, Operations.Show(s, showOrder(s.table)))
  {
    match c
    case Write(pairs) =>
      if |pairs| == 0 then Job(s, "")
      else var reply := Operations.Write(s, pairs); Job(reply.kvs, reply.out)
    case Read(keys) =>
      if |keys| == 0 then Job(s, "")
      else var reply := Operations.Read(s, keys); Job(reply.kvs, reply.out)
    case Delete(keys) =>
      if |keys| == 0 then Job(s, "")
      else var reply := Operations.Delete(s, keys); Job(reply.kvs, reply.out)
    case Show => Job(s, Operations.Show(s, showOrder(s.table)))
    case Wait(delay) =>
      if delay.None? then Job(s, "")
      else if delay.value > 0 then Job(s, WaitingText)
      else Job(s, "")
    case Backup => Job(s, "")
    case Invalid => Job(s, "")
    case Help => Job(s, HelpText)
    case Empty => Job(s, "")
  }

  /**
   * `kvs_processor`: the commands in order up to the end of input, which an
   * EOC marks (the end of the sequence counts as one). It always returns 0,
   * so only the store and the output are modelled.
   */
  function Run(s: Operations.Kvs, cmds: seq<Command>, showOrder: Table -> seq<string>): (r: Job)
    requires s.Live? && IsEnumerator(showOrder)
    ensures r.kvs.Live?
    ensures (forall i :: 0 <= i < |cmds| ==> !Mutates(cmds[i])) ==> r.kvs == s
    decreases |cmds|
  {
    if |cmds| == 0 || cmds[0].Eoc? then Job(s, "")
    else
      var first := Step(s, cmds[0], showOrder);
      var rest := Run(first.kvs, cmds[1..], showOrder);
      Job(rest.kvs, first.out + rest.out)
  }

  /** True when no command of the sequence is an EOC. */
  predicate NoEoc(cmds: seq<Command>) {
    forall i :: 0 <= i < |cmds| ==> !cmds[i].Eoc?
  }

  /**
   * Commands are processed strictly in order: running a prefix free of EOC
   * and then the rest from the store it leaves is running the whole.
   */
  lemma {:induction false} RunAppend(s: Operations.Kvs, a: seq<Command>, b: seq<Command>, showOrder: Table -> seq<string>)
    requires s.Live? && IsEnumerator(showOrder)
    requires NoEoc(a)
    ensures var first := Run(s, a, showOrder);
            var second := Run(first.kvs, b, showOrder);
            Run(s, a + b, showOrder) == Job(second.kvs, first.out + second.out)
    decreases |a|
  {
    if |a| == 0 {
      assert a + b == b;
    } else {
      var step := Step(s, a[0], showOrder);
      var restA := Run(step.kvs, a[1..], showOrder);
      var second := Run(restA.kvs, b, showOrder);
      RunAppend(step.kvs, a[1..], b, showOrder);
      Collections.TailOfAppend(a, b);
      Collections.AppendAssoc(step.out, restA.out, second.out);
    }
  }

  /** Nothing after an EOC affects the store or the output. */
  lemma RunStopsAtEoc(s: Operations.Kvs, a: seq<Command>, b: seq<Command>, showOrder: Table -> seq<string>)
    requires s.Live? && IsEnumerator(showOrder)
    requires NoEoc(a)
    ensures Run(s, a + [Eoc] + b, showOrder) == Run(s, a, showOrder)
  {
    assert a + [Eoc] + b == a + ([Eoc] + b);
    RunAppend(s, a, [Eoc] + b, showOrder);
    assert Run(Run(s, a, showOrder).kvs, [Eoc] + b, showOrder).out == "";
  }

  /** Last write wins across commands: a READ after a WRITE of the key shows the value written. */
  lemma WriteThenRead(s: Operations.Kvs, key: string, value: string, showOrder: Table -> seq<string>)
    requires s.Live? && IsEnumerator(showOrder)
    ensures Run(s, [Write([(key, value)]), Read([key])], showOrder).out == "[(" + key + "," + value + ")]\n"
  {
    var cmds := [Write([(key, value)]), Read([key])];
    var w := Step(s, cmds[0], showOrder);
    var r := Step(w.kvs, cmds[1], showOrder);
    Operations.ReadSeesLastWrite(s, [(key, value)], key, value);
    assert r.out == "[(" + key + "," + value + ")]\n";
    assert cmds[1..] == [cmds[1]] && cmds[1..][1..] == [];
    assert Run(w.kvs, cmds[1..], showOrder) == Job(r.kvs, r.out + "");
  }
}

=== FILE: timing.dfy ===
/**
 * Conversion of a WAIT delay in milliseconds into the `struct timespec`
 * handed to the sleep call.
 */
module Timing {

  /** C `unsigned int`: the type of a WAIT delay. */
  newtype u32 = x: int | 0 <= x < 0x1_0000_0000

  /** `struct timespec`: whole seconds and the nanoseconds beyond them. */
  datatype Timespec = Timespec(sec: int, nsec: int)

  const NanosPerSecond := 1_000_000_000
  const NanosPerMilli := 1_000_000

  /**
   * Whole seconds from integer division, nanoseconds from the remainder. The
   * nanosecond product is computed in `unsigned int`, as `delay_to_timespec` does, and
   * the newtype makes the verifier show that it cannot wrap around.
   */
  function DelayToTimespec(delayMs: u32): (t: Timespec)
    ensures 0 <= t.sec
    ensures 0 <= t.nsec < NanosPerSecond
    ensures t.nsec % NanosPerMilli == 0
    ensures t.sec * 1000 + t.nsec / NanosPerMilli == delayMs as int
  {
    var remainder: u32 := delayMs % 1000;
    var nanos: u32 := remainder * 1_000_000;
    Timespec((delayMs / 1000) as int, nanos as int)
  }

  /** A timespec whose nanoseconds are a whole number of milliseconds below one second. */
  predicate IsMilliTimespec(t: Timespec) {
    0 <= t.sec && 0 <= t.nsec < NanosPerSecond && t.nsec % NanosPerMilli == 0
  }

  /** The duration of a timespec, in whole milliseconds. */
  function ToMillis(t: Timespec): int {
    t.sec * 1000 + t.nsec / NanosPerMilli
  }

  /**
   * The converse direction: a millisecond-aligned timespec is recovered from
   * its duration, so the conversion is the unique such decomposition.
   */
  lemma DelayToTimespecInverse(t: Timespec)
    requires IsMilliTimespec(t)
    requires ToMillis(t) < 0x1_0000_0000
    ensures DelayToTimespec(ToMillis(t) as u32) == t
  {
    var d := ToMillis(t);
    var q := t.nsec / NanosPerMilli;
    assert 0 <= q < 1000;
    assert d / 1000 == t.sec && d % 1000 == q by {
      assert d == t.sec * 1000 + q;
    }
  }
}

=== FILE: wrappers.dfy ===
/** Optional values, for lookups that may find nothing. */
module Wrappers {

  datatype Option<T> = None | Some(value: T) {

    /** This value when present, otherwise `other`. */
    function OrElse(other: Option<T>): Option<T> {
      if Some? then this else other
    }
  }
}
